=== FILE: README.md ===
# wifi-os2 `index.js` in Dafny

`index.js` of wifi-os2 is a small Node.js helper that drives NetworkManager
over the system D-Bus. It picks the wireless device, resolves a network
name to a visible access point, builds a connection profile for it (with
optional static DNS servers), submits the profile with
`AddAndActivateConnection`, polls until the new active connection reaches
ACTIVATED, gives up after a bounded number of polls and deletes the
profile after a failure. It also lists the wired (`802-3-ethernet`)
profiles together with whether each one is active.

The model keeps that logic and drops the bus. Every remote read becomes an
input value: `Reply<T>` is either `Got(value)` or `Refused(rejection)`. Each
promise chain becomes a pure function, and the outcome of a chain is
`Settled`, either `Fulfilled(message)` or `Rejected(rejection)`. The remote
calls that change NetworkManager's state (`AddAndActivate`, `Delete`) are
returned as a list, so contracts can say which calls were made and in what
order.

| file | module | models |
|---|---|---|
| `basics.dfy` | `Basics` | `Option`, `Result`, object paths, bytes |
| `seqs.dfy` | `Seqs` | the `filter`/`map` that the promise chains use |
| `errors.dfy` | `Errors` | the module's error constructors, rejection values, Bluebird `.finally` |
| `network_manager.dfy` | `NetworkManager` | NetworkManager constants, devices, access points, active connections, stored profiles |
| `address.dfy` | `Address` | `ipToInt`: `split`, `parseInt(…, 10)`, weights `256 ** index`, `reduce` |
| `settings.dfy` | `Settings` | `buildConnectionSettings` |
| `selection.dfy` | `Selection` | `isWiFiDevice`, `getFirstWifiDevice`, `init`, `listAccessPoints`, `findAccessPointPathBySsid` |
| `activation.dfy` | `Activation` | `getConnectionActivePath`, `waitActivateConnection`, `waitAgain` |
| `connect.dfy` | `Connect` | `handleActivationError`, `connectToAccessPoint` |
| `ethernet.dfy` | `Ethernet` | `listEthernetConnections`, `isEthernetConnection`, `addConnectionsState` |

Some modelling choices:

- **`instanceof NotActivated`.** All three error constructors set `prototype = Error.prototype`. That makes `err instanceof NotActivated` true for every Error-derived value, not only for `NotActivated`. `Rejection.IsErrorDerived` models this test. A D-Bus failure carries a flag saying whether it is an `Error`.
- **The polling counter.** `waitActivateConnection` reads the counter at 0, 2, …, 18. Two increments happen per round: `retries + 1` in the caller and `retries + 1` in `waitAgain`. It times out when the counter equals `CONNECT_TIMEOUT` (20). So there are at most ten polls and ten one-second waits. `Activation.WaitActivateConnection` is the nested recursion as written, including the second `waitAgain` in the `catch`. `Activation.WaitIsBoundedPoll` proves that it equals the flat loop `Activation.BoundedPoll`.
- **What a poll observes.** Poll number k observes `env(k)`. The one-second `Promise.delay` becomes a counted wait in the `Trace`.
- **The receiver of `connectToAccessPoint`.** The arrow functions there store `apPath` and `settingsPath` on `this`. That is the module's exports object, shared between calls, so it is threaded through as a `Receiver`.

## Model

| member | source | states |
|---|---|---|
| `Address.JoinSplit` | index.js:199-203 | joining the parts of `split` on the separator gives back the text |
| `Address.SplitJoin` | index.js:199-203 | splitting joined parts that contain no separator gives back the parts |
| `Address.ParseInt` | index.js:199-203 | `parseInt(s, 10)` of an all-digit numeral is its decimal value; text starting with anything but white space, a sign or a digit is NaN |
| `Address.IpToIntIsLittleEndian` | index.js:199-203 | `ipToInt` is the base-256 value of the parsed components, first component least significant; it is NaN exactly when some component fails to parse |
| `Address.IpToIntRoundTrip` | index.js:199-203 | for dotted-decimal text of octets, `ipToInt` gives their packing, which is below `256 ** count` and unpacks to the same octets |
| `Address.IpToIntFourOctets` | index.js:199-203 | a four-octet address packs into a 32-bit value that unpacks to its octets |
| `Address.PackRoundTrip` | index.js:199-203 | the little-endian packing of octets unpacks to the same octets |
| `Address.IpToIntOfNumerals` | index.js:199-203 | for any all-digit components (leading zeros allowed) whose values are octets, `ipToInt` of the dotted text is their packing, below `256 ** count`, and it unpacks to those values |
| `Address.IpToIntFourNumerals` | index.js:199-203 | four all-digit components with octet values give a value below 2^32 that unpacks to those values |
| `Address.IpToIntExample` | index.js:199-203 | `ipToInt('8.8.4.4')` is 67373064 |
| `Address.IpToIntLeadingZeroExample` | index.js:199-203 | `ipToInt('8.8.4.04')` is 67373064 too |
| `Settings.BuildConnectionSettings` | index.js:205-230 | the SSID bytes are the UTF-8 encoding of the name; the id is the name and the type is `802-11-wireless`; security is open auth with WPA-PSK and the passphrase; an `ipv4` section exists exactly when DNS servers are given, and it holds `ipToInt` of each server in order, `ignore-auto-dns` and method `auto` |
| `Settings.DnsRoundTrip` | index.js:205-230 | DNS servers given as dotted octets come out as 32-bit numbers, in order, that unpack to those octets |
| `Selection.Init` | index.js:146-166 | `init` fails with `NoWiFiDevice` exactly when no device has type `NM_DEVICE_TYPE_WIFI`; otherwise it picks the first such device in enumeration order |
| `Selection.ListAccessPoints` | index.js:180-193 | one decoded name per visible access point, in order |
| `Selection.FindAccessPointPathBySsid` | index.js:232-248 | rejects with `NoAccessPoint` exactly when no visible access point carries the name; otherwise returns the path of the first that does |
| `Activation.GetConnectionActivePath` | index.js:265-276 | rejects with `NotActivated` exactly when no active connection refers back to the profile; otherwise returns the first that does |
| `Activation.PollOnceCases` | index.js:292-302 | a poll reads ACTIVATED exactly when the profile has an active connection whose state is ACTIVATED; it is inconclusive exactly when that state is neither ACTIVATED nor DEACTIVATED; DEACTIVATED fails with `NotActivated`; a missing active connection fails with `NotActivated`; a failed enumeration or a failed `State` read fails with its error |
| `Activation.Chain` | index.js:292-302 | ACTIVATED resolves with `Connection activated` after this poll alone; a failed poll rejects with its own error after this poll alone; any other state settles as the following `waitAgain` does, with this poll first |
| `Activation.WaitActivateConnection` | index.js:278-309 | every rejection that leaves the poll is Error-derived; success carries `Connection activated`; the counter never passes `CONNECT_TIMEOUT`; the first poll reads the counter passed in (0 when `undefined`); every poll but possibly the last is followed by a wait |
| `Activation.WaitAgain` | index.js:278-281 | at least one wait; the next poll, if any, has the counter raised once more (`retries + 1`); the same guarantees as the poll |
| `Activation.WaitIsBoundedPoll` | index.js:278-309 | the nested recursion with a `catch` at every level equals a flat loop of at most ten polls at counter values 0, 2, …, 18 |
| `Activation.BoundedPollFirstDecisive` | index.js:283-309 | from any poll on, the first decisive poll settles the run, after one wait per earlier inconclusive poll |
| `Activation.BoundedPollTimeout` | index.js:283-309 | when no poll from some point on is decisive, the run times out with `NotActivated` after the remaining polls |
| `Activation.BoundedPollFulfilledIff` | index.js:283-309 | the flat loop succeeds exactly when some poll within the bound reads ACTIVATED and every earlier poll was inconclusive |
| `Activation.ActivationSettledByFirstDecisivePoll` | index.js:283-309 | among the first ten polls, the first decisive one settles activation; the polls happen at counter values 0, 2, …, 2d with d waits |
| `Activation.ActivationTimesOut` | index.js:278-309 | ten inconclusive polls at counter values 0, 2, …, 18, each followed by a wait, end in `NotActivated` |
| `Activation.ActivationFulfilledIff` | index.js:283-309 | activation succeeds exactly when one of the first ten polls reads ACTIVATED and every earlier poll was inconclusive |
| `Activation.NoActiveConnectionNoRetry` | index.js:265-309 | if no active connection refers to the new profile at the first poll, the result is `NotActivated` with no retry and no wait |
| `Activation.DeactivatedOnFirstPoll` | index.js:298-300 | DEACTIVATED at the first poll ends in `NotActivated` after that one poll |
| `Activation.ActivatedOnThirdPoll` | index.js:292-302 | ACTIVATED at the third poll succeeds after three polls and two waits |
| `Activation.ErrorRejectionNotRetried` | index.js:303-306 | an Error-derived rejection during a poll is passed on without a retry |
| `Activation.NonErrorRejectionRetried` | index.js:303-308 | a rejection that is not Error-derived is retried: a wait and a second poll at counter 2 follow, and the run does not settle with that rejection |
| `Connect.HandleActivationError` | index.js:311-322 | always rejects with the original error, even if the deletion fails; it deletes the given profile exactly when the error is Error-derived, and makes no other call |
| `Connect.EarlyFailure` | index.js:316-335 | a failure before submission rejects with that error and leaves the receiver alone; it deletes `this.settingsPath` exactly when the error is Error-derived, and makes no other call |
| `Connect.ConnectToAccessPoint` | index.js:324-337 | success carries `Connection activated`; the calls are none, or start with the submission, or are a lone deletion of the receiver's `settingsPath`; every deletion targets the receiver's `settingsPath`; at most two calls |
| `Connect.SubmitsToFirstMatch` | index.js:324-332 | the submitted profile is what `buildConnectionSettings` makes, for the device `init` chose and the first visible access point with the name |
| `Connect.ConnectedIff` | index.js:324-337 | `connectToAccessPoint` succeeds exactly when the profile was submitted and activation succeeds within ten polls; it then made only the submission, and the receiver holds the new profile's path |
| `Connect.ActivationFailureDeletesOwnProfile` | index.js:316-337 | when no poll within the first ten reads ACTIVATED after only inconclusive polls, the submitted profile's activation fails: the call rejects with the activation's error and deletes exactly that profile, once, after the submission |
| `Connect.DeletionDoesNotMask` | index.js:316-322 | how the deletion settles never changes how `connectToAccessPoint` settles |
| `Connect.NoAccessPointDeletesReceiverProfile` | index.js:324-337 | as written, a name no access point carries rejects with `NoAccessPoint` and still deletes whatever `this.settingsPath` holds |
| `Connect.RefusedSubmissionDeletesReceiverProfile` | index.js:324-337 | as written, a refused `AddAndActivateConnection` rejects with its error after the submission call; an Error-derived refusal then deletes the receiver's earlier `settingsPath`, a non-Error one deletes nothing; the receiver's `settingsPath` is unchanged |
| `Connect.StaleProfileDeleted` | index.js:324-337 | a concrete input on which the code as written deletes an earlier call's profile and the corrected version deletes nothing |
| `Connect.ConnectToAccessPointIntended` | index.js:324-337 | corrected: every deletion targets the profile this call submitted, and only after the submission |
| `Connect.IntendedNoAccessPoint` | index.js:324-337 | corrected: a name no access point carries rejects with `NoAccessPoint` and makes no call |
| `Connect.IntendedRefusedSubmission` | index.js:324-337 | corrected: a refused submission rejects with its error and makes no call after the submission |
| `Connect.IntendedAgreesWithWritten` | index.js:324-337 | the correction keeps the outcome, the polling and the receiver of the code as written, and keeps its calls once a profile was submitted |
| `Ethernet.AddConnectionsState` | index.js:360-369 | keeps every profile, its order and its settings, and marks a profile active exactly when some active connection refers back to it |
| `Ethernet.ListEthernetConnections` | index.js:339-369 | a failed read of the profiles, then of the active connections, rejects with that failure; otherwise the listing is exactly the `802-3-ethernet` profiles, in order, each marked active exactly when an active connection refers to it |
| `Ethernet.ListedAreExactlyWired` | index.js:339-358 | every listed connection is a wired profile that was enumerated, and every wired profile is listed |

## Left out

- D-Bus plumbing is not modelled: `getServiceI`, `getSettingsI`, `getDeviceI`, `getAccessPointI`, `getWiFiDeviceI`, `getActiveI`, `getConnectionI`, the `Interface.prototype.init` promisification, and `BUS`/`DEVICE_PATH` as globals. Property reads arrive as values. `init` returns the device path, and `connectToAccessPoint` takes it as a parameter.
- `fini` only disconnects the bus and clears the two globals, so it is not modelled.
- `updateConnection`, `getConnectionByUuid` and `updateConnectionSettings` are not modelled. They forward a caller's settings to the bus, and `updateConnection` also logs them to the console.
- `Buffer.from(…)` (UTF-8 encoding of a name to bytes, and decoding it back) is the parameter `utf8`, and access point names arrive already decoded. The model does not include the UTF-8 codec.
- Timing: `Promise.delay(1000)` is a counted wait. Wall-clock time and the interleaving of concurrent calls are not modelled.
- Address.IpToInt: uses exact integers, not IEEE doubles. Rounding above 2^53, `-0` and `Infinity` are not modelled; a parsed value is an integer or NaN. Only single-character `split` separators are modelled.
- Address.ParseInt: the contract covers all-digit numerals and the NaN case for a leading non-numeric character. The body also models leading white space, a sign and trailing garbage, but no contract states those.
- `getServiceI()` is not modelled as failing. Its failure would reject `connectToAccessPoint` after the access point was found and before `AddAndActivateConnection` was called. The rejection and the compensation would be those of a refused submission, but no `AddAndActivate` call would be made; the model records that call for a refused submission and has no case without it.
- Selection.Init: transport failures while enumerating devices or reading `DeviceType` are not modelled. Only the `NoWiFiDevice` outcome is.
- Selection.FindAccessPointPathBySsid: takes the listing as a value. Its handlers are arrow functions, so `.bind({})` does not reach them: `this.apPaths` is written to the lexical `this` of a plain call in a module without `'use strict'`, the global object. That side effect on the global object is not modelled. A failed listing is the `accessPoints` reply of the connect environment.
- A failed read of one access point's `Ssid` is folded into the failure of the whole listing, as `Promise.map` rejects with the first failure.
- Likewise, in `listEthernetConnections` a failed `GetSettings` read of one profile (index.js:342, 351-354) is folded into the `profiles` reply, and a failed `Connection` read of one active connection (index.js:362) into the `actives` reply, of `Ethernet.ListEthernetConnections`. Which read failed, and the order the reads run in, are not modelled.
- The `.get(0)` of `connectToAccessPoint` takes the first element of the `AddAndActivateConnection` reply. The model receives that element, the new profile's settings path, directly.
- The example drivers are not modelled. `examples/connect.js` and `examples/list.js` only call exported functions and print the results. `examples/eth.js` also carries its own copy of `ipToInt` (examples/eth.js:25-29), identical to index.js:199-203 and so modelled by `Address.IpToInt`; it builds a settings record for `updateConnection`, which is left out.

## Findings

| source | as written | input that shows it | evidently intended | confidence | as-written member | corrected member |
|---|---|---|---|---|---|---|
| index.js:324-337 | every rejection in `connectToAccessPoint` goes to `handleActivationError(err, this.settingsPath)`, including `NoAccessPoint` before anything was submitted and a refused `AddAndActivateConnection`, which never produced a new profile path. `this` is the module's exports object, shared between calls, so it still holds the `settingsPath` of an earlier call (or `undefined`). | an earlier call left `this.settingsPath = '/org/freedesktop/NetworkManager/Settings/7'`; the next call asks for `'home'`, which no visible access point carries | reject with `NoAccessPoint` and delete nothing; delete only a profile this call submitted | not executed | `Connect.ConnectToAccessPoint`, shown by `Connect.StaleProfileDeleted`, `Connect.NoAccessPointDeletesReceiverProfile` and `Connect.RefusedSubmissionDeletesReceiverProfile` | `Connect.ConnectToAccessPointIntended`, with `Connect.IntendedNoAccessPoint`, `Connect.IntendedRefusedSubmission` and `Connect.IntendedAgreesWithWritten` |

## Notes on the code

- `CONNECT_TIMEOUT = 20` (index.js:6) reads like 20 polls one second apart. The counter rises twice per round (index.js:280 and index.js:301 or 307), so at most ten polls happen, at counter values 0, 2, …, 18.
- The `802-11-wireless-security` section (index.js:214-218) is set even when `passphrase` is `undefined`; `psk` is then `undefined` (`None` in the model).
- `waitActivateConnection` only ever receives `undefined` or an even counter: its one outside caller passes `undefined` (index.js:334) and each retry adds 2. An odd counter would never equal `CONNECT_TIMEOUT` at index.js:288 and would poll without bound; the model's `CounterInvariant` requires an even counter and so leaves that unreachable case out.
- `ipToInt` (index.js:199-203) raises no error for a malformed address: a component that does not parse makes the packed value NaN.

=== FILE: activation.dfy ===
/**
 * The activation poll: `getConnectionActivePath`, `waitActivateConnection` and
 * `waitAgain`. Each lookup of the active connection is one poll; what the k-th
 * poll observes is `env(k)`, so the remote service becomes a parameter and the
 * one-second `Promise.delay` becomes a counted wait. The retry logic is stated
 * over `steps(k)`, how the k-th poll's `then` chain ends; `Polls(env, settingsPath)`
 * computes those steps from the observations.
 */
module Activation {
  import opened Basics
  import opened Seqs
  import opened Errors
  import opened NetworkManager

  /** `CONNECT_TIMEOUT`: the counter value at which polling gives up. */
  const ConnectTimeout: nat := 20

  /** The message `waitActivateConnection` resolves with. */
  const ActivatedMessage := "Connection activated"

  /**
   * What one poll reads: the active connections with their `Connection`
   * back-references (refused if the enumeration or any back-reference read
   * fails), and what reading `State` on the matched active connection returns.
   */
  datatype PollObservation = PollObservation(actives: Reply<seq<ActiveConnection>>, state: Reply<int>)

  /** How the `then` chain of one poll ends, before the `catch` handler looks at it. */
  datatype Step = Activated | Fails(reason: Rejection) | Pending

  /**
   * The end of a polling run: how it settled, the counter value at each poll, in
   * order, and the number of one-second waits.
   */
  datatype Trace = Trace(result: Settled, polls: seq<nat>, waits: nat)

  /**
   * `getConnectionActivePath`: the path of the first active connection whose
   * `Connection` is `settingsPath`; `NotActivated` exactly when there is none.
   */
  function GetConnectionActivePath(actives: seq<ActiveConnection>, settingsPath: Path): (r: Result<Path, Rejection>)
    ensures r.Err? <==> forall i :: 0 <= i < |actives| ==> actives[i].connection != settingsPath
    ensures r.Err? ==> r.error == NotActivated
    ensures r.Ok? ==> exists i :: && 0 <= i < |actives| && actives[i].connection == settingsPath
                                  && r.value == actives[i].path
                                  && forall j :: 0 <= j < i ==> actives[j].connection != settingsPath
  {
    var matches := (a: ActiveConnection) => a.connection == settingsPath;
    var found := Filter(matches, actives);
    FilterHead(matches, actives);
    if |found| == 0 then Err(NotActivated) else Ok(found[0].path)
  }

  /** One poll's `then` chain: look up the active connection, read its `State`, and branch on it. */
  function PollOnce(o: PollObservation, settingsPath: Path): Step {
    match o.actives
    case Refused(e) => Fails(e)
    case Got(actives) =>
      match GetConnectionActivePath(actives, settingsPath)
      case Err(e) => Fails(e)
      case Ok(_) =>
        match o.state
        case Refused(e) => Fails(e)
        case Got(s) =>
          if s == ActiveStateActivated then Activated
          else if s == ActiveStateDeactivated then Fails(NotActivated)
          else Pending
  }

  /** Some active connection refers back to the profile at `settingsPath`. */
  predicate Refers(actives: seq<ActiveConnection>, settingsPath: Path) {
    exists i :: 0 <= i < |actives| && actives[i].connection == settingsPath
  }

  /**
   * A poll reads ACTIVATED exactly when the enumeration succeeds, some active
   * connection refers to the profile and its `State` is ACTIVATED; it is
   * inconclusive exactly when that `State` is neither ACTIVATED nor DEACTIVATED;
   * otherwise it fails, with `NotActivated` when no active connection refers to
   * the profile.
   */
  lemma PollOnceCases(o: PollObservation, settingsPath: Path)
    ensures PollOnce(o, settingsPath) == Activated
      <==> o.actives.Got? && Refers(o.actives.value, settingsPath) && o.state == Got(ActiveStateActivated)
    ensures PollOnce(o, settingsPath).Pending?
      <==> && o.actives.Got? && Refers(o.actives.value, settingsPath) && o.state.Got?
           && o.state.value != ActiveStateActivated && o.state.value != ActiveStateDeactivated
    ensures o.actives.Got? && !Refers(o.actives.value, settingsPath) ==> PollOnce(o, settingsPath) == Fails(NotActivated)
    ensures o.actives.Refused? ==> PollOnce(o, settingsPath) == Fails(o.actives.reason)
    ensures o.actives.Got? && Refers(o.actives.value, settingsPath) && o.state == Got(ActiveStateDeactivated)
      ==> PollOnce(o, settingsPath) == Fails(NotActivated)
    ensures o.actives.Got? && Refers(o.actives.value, settingsPath) && o.state.Refused?
      ==> PollOnce(o, settingsPath) == Fails(o.state.reason)
  {
  }

  /** How each poll ends, for a profile at `settingsPath` and the observations `env`. */
  function Polls(env: nat -> PollObservation, settingsPath: Path): nat -> Step {
    (k: nat) => PollOnce(env(k), settingsPath)
  }

  /** `from, from + 2, from + 4, ...`: `n` counter values two apart. */
  function Ladder(from: nat, n: nat): seq<nat>
    decreases n
  {
    if n == 0 then [] else [from] + Ladder(from + 2, n - 1)
  }

  /**
   * The values `retriesPassed` takes: `undefined` on the first call, and an even
   * number up to `CONNECT_TIMEOUT` afterwards.
   */
  predicate CounterInvariant(retriesPassed: Option<nat>) {
    retriesPassed.Some? ==> retriesPassed.value % 2 == 0 && retriesPassed.value <= ConnectTimeout
  }

  /** `retries` after the `undefined` check: 0 on the first call. */
  function Counter(retriesPassed: Option<nat>): nat {
    if retriesPassed.None? then 0 else retriesPassed.value
  }

  /**
   * The poll itself and the `then` handler on its state, given what the
   * `waitAgain(settingsPath, retries + 1)` it would start settles to:
   * `Connection activated` for ACTIVATED, `NotActivated` for DEACTIVATED, that
   * `waitAgain` for any other state, and a rejected poll rejects the chain.
   */
  function Chain(poll: Step, retries: nat, again: Trace): (t: Trace)
    ensures poll.Pending? ==> t.result == again.result && t.polls == [retries] + again.polls
    ensures !poll.Pending? ==> t.polls == [retries] && t.waits == 0
    ensures poll == Activated ==> t.result == Fulfilled(ActivatedMessage)
    ensures poll.Fails? ==> t.result == Rejected(poll.reason)
  {
    match poll
    case Activated => Trace(Fulfilled(ActivatedMessage), [retries], 0)
    case Fails(e) => Trace(Rejected(e), [retries], 0)
    case Pending => Trace(again.result, [retries] + again.polls, again.waits)
  }

  /**
   * The `catch` handler of `waitActivateConnection`, as written: an
   * Error-derived rejection of the chain is passed on, any other rejection
   * starts `waitAgain(settingsPath, retries + 1)` once more.
   */
  function Catch(chained: Trace, again: Trace): Trace {
    if chained.result.Rejected? && !chained.result.reason.IsErrorDerived() then
      Trace(again.result, chained.polls + again.polls, chained.waits + again.waits)
    else
      chained
  }

  /**
   * `waitActivateConnection(settingsPath, retriesPassed)`: time out once the
   * counter reaches `CONNECT_TIMEOUT`, otherwise poll (`steps(next)`) and run the
   * chain and its `catch`. Both places that call `waitAgain` call it with the same
   * counter, so they share one `again`. The `then` handler calls it right after
   * this poll, and so does the `catch` handler after this poll's own non-Error
   * rejection. The `catch` would also call it after a deeper `waitAgain`
   * rejected, but every rejection leaving `WaitAgain` is Error-derived (its first
   * `ensures`), so that path never runs and sharing `again` is exact. Every
   * rejection leaving a call is Error-derived, the counter never passes
   * `CONNECT_TIMEOUT`, and every poll but possibly the last is followed by a wait.
   *
   * The counter alone decreases. `steps` is a verifier workaround: as the last
   * component of the tuple it is never compared, but since it is never a
   * literal, the verifier no longer unfolds the recursion without bound when the
   * counter is a literal (as in the call from `connectToAccessPoint`).
   */
  function WaitActivateConnection(steps: nat -> Step, retriesPassed: Option<nat>, next: nat): (t: Trace)
    requires CounterInvariant(retriesPassed)
    ensures t.result.Rejected? ==> t.result.reason.IsErrorDerived()
    ensures t.result.Fulfilled? ==> t.result.message == ActivatedMessage
    ensures Counter(retriesPassed) + 2 * |t.polls| <= ConnectTimeout
    ensures t.waits == |t.polls| || t.waits + 1 == |t.polls|
    ensures |t.polls| > 0 ==> t.polls[0] == Counter(retriesPassed)
    decreases ConnectTimeout - Counter(retriesPassed), 1, steps
  {
    var retries := Counter(retriesPassed);
    if retriesPassed.Some? && retries == ConnectTimeout then
      Trace(Rejected(NotActivated), [], 0)
    else
      var again := WaitAgain(steps, retries + 1, next + 1);
      Catch(Chain(steps(next), retries, again), again)
  }

  /**
   * `waitAgain(settingsPath, retries)`: one wait, then a call with the counter one
   * higher still. `steps` in `decreases` is the same verifier workaround as above.
   */
  function WaitAgain(steps: nat -> Step, retries: nat, next: nat): (t: Trace)
    requires retries % 2 == 1 && retries < ConnectTimeout
    ensures t.result.Rejected? ==> t.result.reason.IsErrorDerived()
    ensures t.result.Fulfilled? ==> t.result.message == ActivatedMessage
    ensures retries + 1 + 2 * |t.polls| <= ConnectTimeout
    ensures t.waits == |t.polls| + 1 || t.waits == |t.polls|
    ensures t.waits >= 1
    ensures |t.polls| > 0 ==> t.polls[0] == retries + 1
    decreases ConnectTimeout - retries, 0, steps
  {
    var t := WaitActivateConnection(steps, Some(retries + 1), next);
    Trace(t.result, t.polls, t.waits + 1)
  }

  // ---------------------------------------------------------------------------
  // The same polling as a flat bounded loop

  /** The most polls one activation makes. */
  const MaxPolls: nat := 10

  /**
   * A poll as the `catch` handler ends up treating it: a rejection that is not
   * Error-derived is retried just like a state that is neither ACTIVATED nor DEACTIVATED.
   */
  function Verdict(s: Step): Step {
    match s
    case Fails(e) => if e.IsErrorDerived() then Fails(e) else Pending
    case other => other
  }

  /** How a decisive poll settles the run. */
  function Conclude(s: Step): Settled
    requires !s.Pending?
  {
    match s
    case Activated => Fulfilled(ActivatedMessage)
    case Fails(e) => Rejected(e)
  }

  /**
   * The reference loop: poll number k (from 0) ends as `steps(k)` with the counter
   * at 2k; a decisive poll ends the run, an inconclusive one is followed by one
   * wait, and after MaxPolls inconclusive polls the run fails with NotActivated.
   * `steps` in `decreases` is the verifier workaround of `WaitActivateConnection`.
   */
  function BoundedPoll(steps: nat -> Step, k: nat): Trace
    requires k <= MaxPolls
    decreases MaxPolls - k, steps
  {
    if k == MaxPolls then Trace(Rejected(NotActivated), [], 0)
    else
      match Verdict(steps(k))
      case Pending =>
        var rest := BoundedPoll(steps, k + 1);
        Trace(rest.result, [2 * k] + rest.polls, rest.waits + 1)
      case decisive => Trace(Conclude(decisive), [2 * k], 0)
  }

  /** `retriesPassed` is below `CONNECT_TIMEOUT`, so the call polls. */
  predicate Polling(retriesPassed: Option<nat>) {
    CounterInvariant(retriesPassed) && Counter(retriesPassed) < ConnectTimeout
  }

  /** A decisive poll ends `waitActivateConnection` at once, whatever the counter. */
  lemma WaitDecisiveStep(steps: nat -> Step, retriesPassed: Option<nat>, next: nat)
    requires Polling(retriesPassed) && !Verdict(steps(next)).Pending?
    ensures WaitActivateConnection(steps, retriesPassed, next)
         == Trace(Conclude(Verdict(steps(next))), [Counter(retriesPassed)], 0)
  {
  }

  /** An inconclusive poll is followed by one wait and the call with the counter two higher. */
  lemma WaitPendingStep(steps: nat -> Step, retriesPassed: Option<nat>, next: nat)
    requires Polling(retriesPassed) && Verdict(steps(next)).Pending?
    ensures var rest := WaitActivateConnection(steps, Some(Counter(retriesPassed) + 2), next + 1);
      WaitActivateConnection(steps, retriesPassed, next)
        == Trace(rest.result, [Counter(retriesPassed)] + rest.polls, rest.waits + 1)
  {
  }

  /** The counter values of consecutive calls. */
  lemma Parity(k: nat)
    ensures (2 * k) % 2 == 0 && (2 * k + 2) % 2 == 0
  {
  }

  /**
   * The nested retries of `waitActivateConnection`, with the counter going up by
   * two per retry and a `catch` at every level, behave exactly like the flat loop
   * of at most MaxPolls polls: the k-th call (from 0) has the counter at 2k, and
   * the second `waitAgain` in a `catch` never meets a rejection coming from a
   * deeper level, as those are all Error-derived.
   */
  lemma {:induction false} WaitIsBoundedPoll(steps: nat -> Step, retriesPassed: Option<nat>, k: nat)
    requires k <= MaxPolls && CounterInvariant(retriesPassed)
    requires Counter(retriesPassed) == 2 * k && (k == 0 || retriesPassed.Some?)
    ensures WaitActivateConnection(steps, retriesPassed, k) == BoundedPoll(steps, k)
    decreases MaxPolls - k
  {
    if k < MaxPolls {
      Parity(k);
      if Verdict(steps(k)).Pending? {
        WaitIsBoundedPoll(steps, Some(2 * k + 2), k + 1);
        PendingPollsAgree(steps, retriesPassed, k);
      } else {
        WaitDecisiveStep(steps, retriesPassed, k);
      }
    }
  }

  /** The induction step of WaitIsBoundedPoll for an inconclusive poll. */
  lemma PendingPollsAgree(steps: nat -> Step, retriesPassed: Option<nat>, k: nat)
    requires k < MaxPolls && Polling(retriesPassed) && Counter(retriesPassed) == 2 * k
    requires Verdict(steps(k)).Pending?
    requires WaitActivateConnection(steps, Some(2 * k + 2), k + 1) == BoundedPoll(steps, k + 1)
    ensures WaitActivateConnection(steps, retriesPassed, k) == BoundedPoll(steps, k)
  {
    WaitPendingStep(steps, retriesPassed, k);
    BoundedPollPending(steps, k);
  }

  /** An inconclusive poll of the flat loop is followed by a wait and the next poll. */
  lemma BoundedPollPending(steps: nat -> Step, k: nat)
    requires k < MaxPolls && Verdict(steps(k)).Pending?
    ensures var rest := BoundedPoll(steps, k + 1);
      BoundedPoll(steps, k) == Trace(rest.result, [2 * k] + rest.polls, rest.waits + 1)
  {
  }

  /** Polling from poll k on is settled by the first decisive poll d, after d - k waits. */
  lemma {:induction false} BoundedPollFirstDecisive(steps: nat -> Step, k: nat, d: nat)
    requires k <= d < MaxPolls
    requires !Verdict(steps(d)).Pending?
    requires forall j :: k <= j < d ==> Verdict(steps(j)).Pending?
    ensures BoundedPoll(steps, k) == Trace(Conclude(Verdict(steps(d))), Ladder(2 * k, d - k + 1), d - k)
    decreases d - k
  {
    if k < d {
      BoundedPollFirstDecisive(steps, k + 1, d);
      var rest := BoundedPoll(steps, k + 1);
      assert Verdict(steps(k)).Pending?;
      assert BoundedPoll(steps, k) == Trace(rest.result, [2 * k] + rest.polls, rest.waits + 1);
      assert Ladder(2 * k, d - k + 1) == [2 * k] + Ladder(2 * k + 2, d - k);
    } else {
      assert BoundedPoll(steps, k) == Trace(Conclude(Verdict(steps(k))), [2 * k], 0);
      assert Ladder(2 * k, 1) == [2 * k];
    }
  }

  /** With no decisive poll from k on, polling times out after MaxPolls - k more polls and waits. */
  lemma {:induction false} BoundedPollTimeout(steps: nat -> Step, k: nat)
    requires k <= MaxPolls
    requires forall j :: k <= j < MaxPolls ==> Verdict(steps(j)).Pending?
    ensures BoundedPoll(steps, k) == Trace(Rejected(NotActivated), Ladder(2 * k, MaxPolls - k), MaxPolls - k)
    decreases MaxPolls - k
  {
    if k < MaxPolls {
      BoundedPollTimeout(steps, k + 1);
      var rest := BoundedPoll(steps, k + 1);
      assert Verdict(steps(k)).Pending?;
      assert BoundedPoll(steps, k) == Trace(rest.result, [2 * k] + rest.polls, rest.waits + 1);
      assert Ladder(2 * k, MaxPolls - k) == [2 * k] + Ladder(2 * k + 2, MaxPolls - k - 1);
    }
  }

  /** Poll d is the first from poll k on that is not inconclusive, and it reads ACTIVATED. */
  ghost predicate FirstActivated(steps: nat -> Step, k: nat, d: nat) {
    k <= d < MaxPolls && Verdict(steps(d)) == Activated
    && forall j :: k <= j < d ==> Verdict(steps(j)).Pending?
  }

  ghost predicate ActivatedWithinBound(steps: nat -> Step, k: nat) {
    exists d :: FirstActivated(steps, k, d)
  }

  lemma {:induction false} BoundedPollFulfilledIff(steps: nat -> Step, k: nat)
    requires k <= MaxPolls
    ensures BoundedPoll(steps, k).result.Fulfilled? <==> ActivatedWithinBound(steps, k)
    decreases MaxPolls - k
  {
    if k < MaxPolls {
      BoundedPollFulfilledIff(steps, k + 1);
      var v := Verdict(steps(k));
      if v.Pending? {
        if ActivatedWithinBound(steps, k) {
          var d :| FirstActivated(steps, k, d);
          assert FirstActivated(steps, k + 1, d);
        }
        if ActivatedWithinBound(steps, k + 1) {
          var d :| FirstActivated(steps, k + 1, d);
          assert FirstActivated(steps, k, d);
        }
      } else if v == Activated {
        assert FirstActivated(steps, k, k);
      }
    }
  }

  /**
   * The first decisive poll among the first ten settles activation: ACTIVATED
   * resolves with `Connection activated`; DEACTIVATED, a missing active connection
   * or an Error-derived rejection rejects with that error. Polls happen at counter
   * values 0, 2, ..., 2d and every poll but the last is followed by one wait.
   */
  lemma ActivationSettledByFirstDecisivePoll(steps: nat -> Step, d: nat)
    requires d < MaxPolls
    requires !Verdict(steps(d)).Pending?
    requires forall j :: 0 <= j < d ==> Verdict(steps(j)).Pending?
    ensures WaitActivateConnection(steps, None, 0) == Trace(Conclude(Verdict(steps(d))), Ladder(0, d + 1), d)
  {
    WaitIsBoundedPoll(steps, None, 0);
    BoundedPollFirstDecisive(steps, 0, d);
  }

  /**
   * Timeout: ten inconclusive polls, at counter values 0, 2, ..., 18, each followed
   * by a wait, and then `NotActivated` when the counter reaches `CONNECT_TIMEOUT`.
   */
  lemma ActivationTimesOut(steps: nat -> Step)
    requires forall j :: 0 <= j < MaxPolls ==> Verdict(steps(j)).Pending?
    ensures WaitActivateConnection(steps, None, 0) == Trace(Rejected(NotActivated), Ladder(0, MaxPolls), MaxPolls)
  {
    WaitIsBoundedPoll(steps, None, 0);
    BoundedPollTimeout(steps, 0);
  }

  /** Activation succeeds exactly when some poll among the first ten reads ACTIVATED and every earlier poll was inconclusive. */
  lemma ActivationFulfilledIff(steps: nat -> Step)
    ensures WaitActivateConnection(steps, None, 0).result.Fulfilled? <==> ActivatedWithinBound(steps, 0)
  {
    WaitIsBoundedPoll(steps, None, 0);
    BoundedPollFulfilledIff(steps, 0);
  }

  /** No active connection refers to the new profile on the first poll: `NotActivated` at once, no retry and no wait. */
  lemma NoActiveConnectionNoRetry(env: nat -> PollObservation, settingsPath: Path, actives: seq<ActiveConnection>)
    requires env(0).actives == Got(actives)
    requires forall i :: 0 <= i < |actives| ==> actives[i].connection != settingsPath
    ensures WaitActivateConnection(Polls(env, settingsPath), None, 0) == Trace(Rejected(NotActivated), [0], 0)
  {
    assert Polls(env, settingsPath)(0) == Fails(NotActivated);
    ActivationSettledByFirstDecisivePoll(Polls(env, settingsPath), 0);
  }

  /** The first poll reads DEACTIVATED: `NotActivated` after that single poll. */
  lemma DeactivatedOnFirstPoll(env: nat -> PollObservation, settingsPath: Path, actives: seq<ActiveConnection>)
    requires env(0) == PollObservation(Got(actives), Got(ActiveStateDeactivated))
    requires exists i :: 0 <= i < |actives| && actives[i].connection == settingsPath
    ensures WaitActivateConnection(Polls(env, settingsPath), None, 0) == Trace(Rejected(NotActivated), [0], 0)
  {
    assert Polls(env, settingsPath)(0) == Fails(NotActivated);
    ActivationSettledByFirstDecisivePoll(Polls(env, settingsPath), 0);
  }

  /** ACTIVATED on the third poll: success after three polls and two waits. */
  lemma ActivatedOnThirdPoll(steps: nat -> Step)
    requires Verdict(steps(0)).Pending? && Verdict(steps(1)).Pending? && steps(2) == Activated
    ensures WaitActivateConnection(steps, None, 0) == Trace(Fulfilled(ActivatedMessage), [0, 2, 4], 2)
  {
    ActivationSettledByFirstDecisivePoll(steps, 2);
  }

  /** An Error-derived rejection during a poll is passed on without a retry. */
  lemma ErrorRejectionNotRetried(steps: nat -> Step, e: Rejection)
    requires steps(0) == Fails(e) && e.IsErrorDerived()
    ensures WaitActivateConnection(steps, None, 0) == Trace(Rejected(e), [0], 0)
  {
    ActivationSettledByFirstDecisivePoll(steps, 0);
  }

  /** A rejection that is not Error-derived is retried: a wait and a second poll at counter 2 follow. */
  lemma NonErrorRejectionRetried(steps: nat -> Step, e: Rejection)
    requires steps(0) == Fails(e) && !e.IsErrorDerived()
    ensures var t := WaitActivateConnection(steps, None, 0);
      |t.polls| >= 2 && t.polls[1] == 2 && t.waits >= 1 && t.result != Rejected(e)
  {
    WaitPendingStep(steps, None, 0);
    if Verdict(steps(1)).Pending? {
      WaitPendingStep(steps, Some(2), 1);
    } else {
      WaitDecisiveStep(steps, Some(2), 1);
    }
  }
}

=== FILE: address.dfy ===
/**
 * `ipToInt`: a dotted-decimal DNS server address packed into one number, the
 * first component being the least significant (`'8.8.4.4'` becomes 67373064).
 * The computation is split on `'.'`, `parseInt(component, 10)` on each part,
 * a multiplication by `256 ** index`, and a left-to-right `reduce` with `+`.
 */
module Address {
  import opened Seqs

  /** A JavaScript number as far as this computation needs one: an exact integer or NaN. */
  datatype JsNumber = Finite(value: int) | NaN

  /** `a + b`; NaN absorbs. */
  function Add(a: JsNumber, b: JsNumber): JsNumber {
    if a.Finite? && b.Finite? then Finite(a.value + b.value) else NaN
  }

  /** `a * k` for an integer `k`; NaN absorbs. */
  function Scale(a: JsNumber, k: int): JsNumber {
    if a.Finite? then Finite(a.value * k) else NaN
  }

  /** A natural number seen as a JavaScript number. */
  function AsNumber(v: nat): JsNumber {
    Finite(v)
  }

  function Pow(base: nat, e: nat): nat {
    if e == 0 then 1 else base * Pow(base, e - 1)
  }

  // ---------------------------------------------------------------------------
  // String.prototype.split with a one-character separator, and its inverse

  /** `s.split(sep)`: never empty; adjacent, leading or trailing separators yield empty parts. */
  function Split(s: string, sep: char): (parts: seq<string>)
    ensures |parts| >= 1
    decreases |s|
  {
    if |s| == 0 then [""]
    else
      var rest := Split(s[1..], sep);
      if s[0] == sep then [""] + rest else [[s[0]] + rest[0]] + rest[1..]
  }

  /** `parts.join(sep)`. */
  function Join(parts: seq<string>, sep: char): string
    requires |parts| >= 1
    decreases |parts|
  {
    if |parts| == 1 then parts[0] else parts[0] + [sep] + Join(parts[1..], sep)
  }

  /** Joining the parts of a split gives back the original string. */
  lemma {:induction false} JoinSplit(s: string, sep: char)
    ensures Join(Split(s, sep), sep) == s
    decreases |s|
  {
    if |s| > 0 {
      var rest := Split(s[1..], sep);
      JoinSplit(s[1..], sep);
      if s[0] == sep {
        assert ([""] + rest)[1..] == rest;
      } else if |rest| > 1 {
        assert ([[s[0]] + rest[0]] + rest[1..])[1..] == rest[1..];
        assert s == [s[0]] + (rest[0] + [sep] + Join(rest[1..], sep));
      } else {
        assert s == [s[0]] + rest[0];
      }
    }
  }

  lemma {:induction false} SplitWithoutSeparator(p: string, sep: char)
    requires sep !in p
    ensures Split(p, sep) == [p]
    decreases |p|
  {
    if |p| > 0 {
      SplitWithoutSeparator(p[1..], sep);
      assert [p[0]] + p[1..] == p;
    }
  }

  lemma {:induction false} SplitAfterPart(p: string, sep: char, t: string)
    requires sep !in p
    ensures Split(p + [sep] + t, sep) == [p] + Split(t, sep)
    decreases |p|
  {
    var s := p + [sep] + t;
    if |p| == 0 {
      assert s[1..] == t;
    } else {
      assert s[1..] == p[1..] + [sep] + t;
      SplitAfterPart(p[1..], sep, t);
      assert [p[0]] + p[1..] == p;
    }
  }

  /** Splitting a join of separator-free parts gives back the parts. */
  lemma {:induction false} SplitJoin(parts: seq<string>, sep: char)
    requires |parts| >= 1
    requires forall i :: 0 <= i < |parts| ==> sep !in parts[i]
    ensures Split(Join(parts, sep), sep) == parts
    decreases |parts|
  {
    if |parts| == 1 {
      SplitWithoutSeparator(parts[0], sep);
    } else {
      SplitAfterPart(parts[0], sep, Join(parts[1..], sep));
      SplitJoin(parts[1..], sep);
      assert [parts[0]] + parts[1..] == parts;
    }
  }

  // ---------------------------------------------------------------------------
  // parseInt(s, 10)

  /** The characters `parseInt` skips before the number (white space and line terminators). */
  predicate IsStrWhiteSpace(c: char) {
    || c == '\t' || c == '\n' || c == '\U{000B}' || c == '\U{000C}' || c == '\r'
    || c == ' ' || c == '\U{00A0}' || c == '\U{1680}' || ('\U{2000}' <= c <= '\U{200A}')
    || c == '\U{2028}' || c == '\U{2029}' || c == '\U{202F}' || c == '\U{205F}'
    || c == '\U{3000}' || c == '\U{FEFF}'
  }

  predicate IsDigit(c: char) {
    '0' <= c <= '9'
  }

  predicate AllDigits(s: string) {
    forall i :: 0 <= i < |s| ==> IsDigit(s[i])
  }

  function DigitValue(c: char): nat
    requires IsDigit(c)
  {
    c as int - '0' as int
  }

  function DigitChar(d: nat): (c: char)
    requires d < 10
    ensures IsDigit(c) && DigitValue(c) == d
  {
    ('0' as int + d) as char
  }

  /** The value of a string of decimal digits, most significant first. */
  function DecimalValue(z: string): nat
    requires AllDigits(z)
    decreases |z|
  {
    if |z| == 0 then 0 else DecimalValue(z[..|z| - 1]) * 10 + DigitValue(z[|z| - 1])
  }

  /** The shortest decimal numeral of `n`. */
  function DecimalString(n: nat): (z: string)
    ensures |z| > 0 && AllDigits(z)
    ensures DecimalValue(z) == n
    decreases n
  {
    if n < 10 then
      assert [DigitChar(n)][..0] == [];
      [DigitChar(n)]
    else
      var z := DecimalString(n / 10) + [DigitChar(n % 10)];
      assert z[..|z| - 1] == DecimalString(n / 10);
      z
  }

  /** `s` with its leading white space removed. */
  function TrimStart(s: string): (t: string)
    ensures |t| <= |s| && t == s[|s| - |t|..]
    ensures |t| > 0 ==> !IsStrWhiteSpace(t[0])
    ensures forall i :: 0 <= i < |s| - |t| ==> IsStrWhiteSpace(s[i])
    decreases |s|
  {
    if |s| > 0 && IsStrWhiteSpace(s[0]) then TrimStart(s[1..]) else s
  }

  /** The longest prefix of `s` made of decimal digits. */
  function DigitPrefix(s: string): (z: string)
    ensures AllDigits(z) && |z| <= |s| && z == s[..|z|]
    ensures |z| < |s| ==> !IsDigit(s[|z|])
    decreases |s|
  {
    if |s| > 0 && IsDigit(s[0]) then [s[0]] + DigitPrefix(s[1..]) else ""
  }

  /**
   * `parseInt(s, 10)`: skip leading white space, take an optional sign, then the
   * longest run of decimal digits; NaN when that run is empty. Trailing garbage
   * is ignored, so `'12a'` parses as 12.
   */
  function ParseInt(s: string): (n: JsNumber)
    ensures |s| > 0 && AllDigits(s) ==> n == Finite(DecimalValue(s))
    ensures |s| > 0 && !IsStrWhiteSpace(s[0]) && !IsDigit(s[0]) && s[0] != '-' && s[0] != '+' ==> n == NaN
  {
    AllDigitsParsed(s);
    var t := TrimStart(s);
    var negative := |t| > 0 && t[0] == '-';
    var unsigned := if |t| > 0 && (t[0] == '-' || t[0] == '+') then t[1..] else t;
    var z := DigitPrefix(unsigned);
    var magnitude: int := if |z| == 0 then 0 else DecimalValue(z);
    if |z| == 0 then NaN
    else if negative then Finite(-magnitude)
    else Finite(magnitude)
  }

  /** A numeral that starts with a digit is neither trimmed nor signed, and is its own digit prefix. */
  lemma AllDigitsParsed(s: string)
    ensures |s| > 0 && AllDigits(s) ==> TrimStart(s) == s && DigitPrefix(s) == s
  {
    if |s| > 0 && AllDigits(s) {
      DigitIsNotWhiteSpace(s[0]);
    }
  }

  lemma DigitIsNotWhiteSpace(c: char)
    requires IsDigit(c)
    ensures !IsStrWhiteSpace(c)
  {
  }

  // ---------------------------------------------------------------------------
  // ipToInt

  /** Each parsed component times `256 ** index`, as the `map` callback computes it. */
  function Weighted(xs: seq<JsNumber>): (ts: seq<JsNumber>)
    ensures |ts| == |xs|
  {
    seq(|xs|, i requires 0 <= i < |xs| => Scale(xs[i], Pow(256, i)))
  }

  /** `reduce((prev, curr) => prev + curr)` without an initial value: a left fold from the first element. */
  function Sum(ts: seq<JsNumber>): JsNumber
    requires |ts| >= 1
    decreases |ts|
  {
    if |ts| == 1 then ts[0] else Add(Sum(ts[..|ts| - 1]), ts[|ts| - 1])
  }

  /** `ipToInt(ip)`. */
  function IpToInt(ip: string): JsNumber {
    Sum(Weighted(Map(ParseInt, Split(ip, '.'))))
  }

  // ---------------------------------------------------------------------------
  // The packing as a base-256 numeral, and its inverse

  /** The base-256 value of `xs`, least significant first, by Horner's rule from the last element. */
  function LittleEndian(xs: seq<JsNumber>): JsNumber
    decreases |xs|
  {
    if |xs| == 0 then Finite(0) else Add(xs[0], Scale(LittleEndian(xs[1..]), 256))
  }

  /** The base-256 value of a sequence of digits, least significant first. */
  function Pack(octets: seq<nat>): nat
    decreases |octets|
  {
    if |octets| == 0 then 0 else octets[0] + 256 * Pack(octets[1..])
  }

  /** The `count` lowest base-256 digits of `n`, by repeated `% 256` and `/ 256`. */
  function Unpack(n: nat, count: nat): (octets: seq<nat>)
    ensures |octets| == count
    decreases count
  {
    if count == 0 then [] else [n % 256] + Unpack(n / 256, count - 1)
  }

  predicate IsOctets(q: seq<nat>) {
    forall i :: 0 <= i < |q| ==> q[i] < 256
  }

  /** The dotted-decimal text of `q` (the empty string for no components). */
  function FormatAddress(q: seq<nat>): string {
    if |q| == 0 then "" else Join(Map(DecimalString, q), '.')
  }

  lemma {:induction false} LittleEndianSnoc(xs: seq<JsNumber>, x: JsNumber)
    ensures LittleEndian(xs + [x]) == Add(LittleEndian(xs), Scale(x, Pow(256, |xs|)))
    decreases |xs|
  {
    if |xs| == 0 {
      assert xs + [x] == [x];
      assert [x][1..] == [];
    } else {
      assert (xs + [x])[1..] == xs[1..] + [x];
      LittleEndianSnoc(xs[1..], x);
      var rest := LittleEndian(xs[1..]);
      if x.Finite? && xs[0].Finite? && rest.Finite? {
        var b, c, p := rest.value, x.value, Pow(256, |xs| - 1);
        assert (b + c * p) * 256 == b * 256 + c * (256 * p);
      }
    }
  }

  /** The source's indexed-power sum equals the Horner-form value. */
  lemma {:induction false} SumWeighted(xs: seq<JsNumber>)
    requires |xs| >= 1
    ensures Sum(Weighted(xs)) == LittleEndian(xs)
    decreases |xs|
  {
    var n := |xs|;
    if n == 1 {
      assert Weighted(xs)[0] == Scale(xs[0], 1);
      assert xs[1..] == [];
    } else {
      var init := xs[..n - 1];
      assert Weighted(xs)[..n - 1] == Weighted(init);
      SumWeighted(init);
      LittleEndianSnoc(init, xs[n - 1]);
      assert init + [xs[n - 1]] == xs;
    }
  }

  /** On natural numbers the Horner form is `Pack`. */
  lemma {:induction false} LittleEndianOfNaturals(vs: seq<nat>)
    ensures LittleEndian(Map(AsNumber, vs)) == Finite(Pack(vs))
    decreases |vs|
  {
    if |vs| > 0 {
      assert Map(AsNumber, vs)[1..] == Map(AsNumber, vs[1..]);
      LittleEndianOfNaturals(vs[1..]);
    }
  }

  /** A NaN component makes the whole value NaN. */
  lemma {:induction false} LittleEndianNaN(xs: seq<JsNumber>)
    ensures LittleEndian(xs).NaN? <==> exists i :: 0 <= i < |xs| && xs[i].NaN?
    decreases |xs|
  {
    if |xs| > 0 {
      LittleEndianNaN(xs[1..]);
      if exists i :: 0 <= i < |xs[1..]| && xs[1..][i].NaN? {
        var i :| 0 <= i < |xs[1..]| && xs[1..][i].NaN?;
        assert xs[i + 1].NaN?;
      }
      if exists i :: 0 <= i < |xs| && xs[i].NaN? {
        var i :| 0 <= i < |xs| && xs[i].NaN?;
        assert i == 0 || xs[1..][i - 1].NaN?;
      }
    }
  }

  lemma DivModByte(a: nat, b: nat)
    requires a < 256
    ensures (a + 256 * b) % 256 == a
    ensures (a + 256 * b) / 256 == b
  {
  }

  /** Octets pack below `256 ** |q|` and repeated `% 256`, `/ 256` recovers them in order. */
  lemma {:induction false} PackRoundTrip(q: seq<nat>)
    requires IsOctets(q)
    ensures 0 <= Pack(q) < Pow(256, |q|)
    ensures Unpack(Pack(q), |q|) == q
    decreases |q|
  {
    if |q| > 0 {
      var p := Pack(q[1..]);
      PackRoundTrip(q[1..]);
      assert q[0] + 256 * p <= 255 + 256 * (Pow(256, |q| - 1) - 1);
      DivModByte(q[0], p);
      assert [q[0]] + q[1..] == q;
    }
  }

  /**
   * `ipToInt` is the little-endian base-256 value of the parsed components:
   * NaN when some component does not parse, and otherwise
   * value[0] + 256 * value[1] + 256^2 * value[2] + ... .
   */
  lemma IpToIntIsLittleEndian(ip: string)
    ensures IpToInt(ip) == LittleEndian(Map(ParseInt, Split(ip, '.')))
    ensures IpToInt(ip).NaN? <==> exists i :: 0 <= i < |Split(ip, '.')| && ParseInt(Split(ip, '.')[i]).NaN?
  {
    var parsed := Map(ParseInt, Split(ip, '.'));
    SumWeighted(parsed);
    LittleEndianNaN(parsed);
  }

  /** The numeral of an octet parses back to it. */
  lemma ParseDecimalString(n: nat)
    ensures ParseInt(DecimalString(n)) == Finite(n)
  {
  }

  /**
   * Round trip: for dotted-decimal text of octets in 0..255, `ipToInt` gives their
   * little-endian packing, which is below `256 ** count` and unpacks to the octets.
   */
  lemma IpToIntRoundTrip(q: seq<nat>)
    requires |q| >= 1 && IsOctets(q)
    ensures IpToInt(FormatAddress(q)) == Finite(Pack(q))
    ensures 0 <= Pack(q) < Pow(256, |q|)
    ensures Unpack(Pack(q), |q|) == q
  {
    var numbers := Map(AsNumber, q);
    FormattedComponents(q);
    assert IpToInt(FormatAddress(q)) == Sum(Weighted(numbers));
    SumWeighted(numbers);
    LittleEndianOfNaturals(q);
    PackRoundTrip(q);
  }

  /** The components of formatted octets parse back to the octets. */
  lemma FormattedComponents(q: seq<nat>)
    requires |q| >= 1
    ensures Map(ParseInt, Split(FormatAddress(q), '.')) == Map(AsNumber, q)
  {
    var parts := Map(DecimalString, q);
    assert FormatAddress(q) == Join(parts, '.');
    NumeralsHaveNoDot(parts);
    SplitJoin(parts, '.');
    assert Split(FormatAddress(q), '.') == parts;
    NumeralsParse(q);
  }

  lemma NumeralsParse(q: seq<nat>)
    ensures Map(ParseInt, Map(DecimalString, q)) == Map(AsNumber, q)
  {
    var numerals := Map(DecimalString, q);
    var parsed := Map(ParseInt, numerals);
    forall i | 0 <= i < |q|
      ensures parsed[i] == Map(AsNumber, q)[i]
    {
      assert numerals[i] == DecimalString(q[i]);
      ParseDecimalString(q[i]);
    }
  }

  lemma NumeralsHaveNoDot(parts: seq<string>)
    requires forall i :: 0 <= i < |parts| ==> AllDigits(parts[i])
    ensures forall i :: 0 <= i < |parts| ==> '.' !in parts[i]
  {
  }

  /** The four-octet case: the packed address fits in 32 bits. */
  lemma IpToIntFourOctets(q: seq<nat>)
    requires |q| == 4 && IsOctets(q)
    ensures IpToInt(FormatAddress(q)) == Finite(Pack(q))
    ensures 0 <= Pack(q) < 0x1_0000_0000
    ensures Unpack(Pack(q), 4) == q
  {
    IpToIntRoundTrip(q);
    assert Pow(256, 4) == 0x1_0000_0000;
  }

  /** Each of `parts` is a non-empty run of decimal digits, possibly with leading zeros. */
  predicate IsNumerals(parts: seq<string>) {
    forall i :: 0 <= i < |parts| ==> |parts[i]| > 0 && AllDigits(parts[i])
  }

  /** The decimal values of numerals, in order. */
  function NumeralValues(parts: seq<string>): (vs: seq<nat>)
    requires IsNumerals(parts)
    ensures |vs| == |parts|
  {
    seq(|parts|, i requires 0 <= i < |parts| => DecimalValue(parts[i]))
  }

  /**
   * Round trip for any all-digit components, leading zeros included (`'8.8.4.04'`):
   * when every component's value is an octet, `ipToInt` of the dotted text is
   * the packing of those values, which is below `256 ** count` and unpacks to them.
   */
  lemma IpToIntOfNumerals(parts: seq<string>)
    requires |parts| >= 1 && IsNumerals(parts) && IsOctets(NumeralValues(parts))
    ensures IpToInt(Join(parts, '.')) == Finite(Pack(NumeralValues(parts)))
    ensures 0 <= Pack(NumeralValues(parts)) < Pow(256, |parts|)
    ensures Unpack(Pack(NumeralValues(parts)), |parts|) == NumeralValues(parts)
  {
    var vs := NumeralValues(parts);
    NumeralsHaveNoDot(parts);
    SplitJoin(parts, '.');
    assert Map(ParseInt, parts) == Map(AsNumber, vs) by {
      forall i | 0 <= i < |parts|
        ensures Map(ParseInt, parts)[i] == Map(AsNumber, vs)[i]
      {
        assert ParseInt(parts[i]) == Finite(DecimalValue(parts[i]));
      }
    }
    SumWeighted(Map(AsNumber, vs));
    LittleEndianOfNaturals(vs);
    PackRoundTrip(vs);
  }

  /** Four all-digit components with octet values give a 32-bit value that unpacks to those values. */
  lemma IpToIntFourNumerals(parts: seq<string>)
    requires |parts| == 4 && IsNumerals(parts) && IsOctets(NumeralValues(parts))
    ensures IpToInt(Join(parts, '.')) == Finite(Pack(NumeralValues(parts)))
    ensures 0 <= Pack(NumeralValues(parts)) < 0x1_0000_0000
    ensures Unpack(Pack(NumeralValues(parts)), 4) == NumeralValues(parts)
  {
    IpToIntOfNumerals(parts);
    assert Pow(256, 4) == 0x1_0000_0000;
  }

  /** The worked example: `ipToInt('8.8.4.4')` is 67373064. */
  lemma IpToIntExample()
    ensures IpToInt("8.8.4.4") == Finite(67373064)
  {
    var q: seq<nat> := [8, 8, 4, 4];
    ExampleText(q);
    IpToIntRoundTrip(q);
    assert q[1..] == [8, 4, 4] && q[2..] == [4, 4] && q[3..] == [4] && q[4..] == [];
    assert Pack(q[2..]) == 1028;
    assert Pack(q) == 67373064;
  }

  /** A leading zero changes nothing: `ipToInt('8.8.4.04')` is 67373064 as well. */
  lemma IpToIntLeadingZeroExample()
    ensures IpToInt("8.8.4.04") == Finite(67373064)
  {
    var parts := ["8", "8", "4", "04"];
    assert parts[1..] == ["8", "4", "04"] && parts[2..] == ["4", "04"] && parts[3..] == ["04"];
    assert Join(parts[2..], '.') == "4.04";
    assert Join(parts[1..], '.') == "8.4.04";
    assert Join(parts, '.') == "8.8.4.04";
    assert DecimalValue("04"[..1]) == 0;
    assert DecimalValue("04") == 4;
    var vs := NumeralValues(parts);
    assert vs == [8, 8, 4, 4];
    IpToIntFourNumerals(parts);
    PackExample(vs);
  }

  lemma PackExample(q: seq<nat>)
    requires q == [8, 8, 4, 4]
    ensures Pack(q) == 67373064
  {
    assert q[1..] == [8, 4, 4] && q[2..] == [4, 4] && q[3..] == [4] && q[4..] == [];
    assert Pack(q[3..]) == 4;
    assert Pack(q[2..]) == 1028;
    assert Pack(q[1..]) == 263176;
  }

  lemma ExampleText(q: seq<nat>)
    requires q == [8, 8, 4, 4]
    ensures FormatAddress(q) == "8.8.4.4"
  {
    var parts := Map(DecimalString, q);
    assert DecimalString(8) == "8" && DecimalString(4) == "4";
    assert parts == ["8", "8", "4", "4"];
    assert parts[1..] == ["8", "4", "4"] && parts[2..] == ["4", "4"] && parts[3..] == ["4"];
    assert Join(parts[2..], '.') == "4.4";
    assert Join(parts[1..], '.') == "8.4.4";
  }

}

=== FILE: basics.dfy ===
/** Small shared vocabulary: optional values, results, object paths and bytes. */
module Basics {

  /** A value that may be absent; `None` stands for JavaScript's `undefined`. */
  datatype Option<+T> = None | Some(value: T)

  /** The outcome of an operation that either yields a value or fails with an error. */
  datatype Result<+T, +E> = Ok(value: T) | Err(error: E)

  /** A D-Bus object path, such as `/org/freedesktop/NetworkManager/Devices/2`. */
  type Path = string

  /** An octet as it travels in a D-Bus byte array. */
  type Byte = b: int | 0 <= b < 256
}

=== FILE: connect.dfy ===
/**
 * `handleActivationError` and `connectToAccessPoint`: submit a profile for a
 * named network, wait for it to come up, and delete a profile whose activation
 * failed. The remote side of one call is an `Environment`; the object the arrow
 * functions of `connectToAccessPoint` write `this.apPath` and `this.settingsPath`
 * to is the module's exports object, shared by every call, so it is threaded in
 * and out as a `Receiver`.
 */
module Connect {
  import opened Basics
  import opened Errors
  import opened NetworkManager
  import opened Settings
  import opened Selection
  import opened Activation

  /** The two fields `connectToAccessPoint` stores on its receiver; `None` is `undefined`. */
  datatype Receiver = Receiver(apPath: Option<Path>, settingsPath: Option<Path>)

  /** The remote calls that change NetworkManager's state. */
  datatype Call =
    | AddAndActivate(settings: ConnectionSettings, device: Path, accessPoint: Path)
    | Delete(target: Option<Path>)

  /**
   * What the remote side answers during one call: the visible access points with
   * their names (or the failure of that listing), the reply to
   * `AddAndActivateConnection` (the new profile's settings path), the polls of the
   * activation, and how `Delete` on a profile settles.
   */
  datatype Environment = Environment(
    accessPoints: Reply<seq<AccessPoint>>,
    submission: Reply<Path>,
    polls: nat -> PollObservation,
    deletion: Settled)

  /** How `handleActivationError` ends: its outcome and the calls it made. */
  datatype Handled = Handled(result: Settled, calls: seq<Call>)

  /** How one call of `connectToAccessPoint` ends. */
  datatype Attempt = Attempt(result: Settled, calls: seq<Call>, polls: seq<nat>, waits: nat, receiver: Receiver)

  /**
   * `handleActivationError(err, settingsPath)`: an Error-derived failure deletes the
   * profile at `target` and rejects with `err` whatever the deletion did; any other
   * failure is rejected again untouched.
   */
  function HandleActivationError(err: Rejection, target: Option<Path>, deletion: Settled): (h: Handled)
    ensures h.result == Rejected(err)
    ensures |h.calls| <= 1
    ensures |h.calls| == 1 <==> err.IsErrorDerived()
    ensures forall c | c in h.calls :: c == Delete(target)
  {
    if err.IsErrorDerived() then
      Handled(Finally(deletion, Rejected(err)), [Delete(target)])
    else
      Handled(Rejected(err), [])
  }

  /** A failure before the profile was submitted: the `catch` handler with whatever `this.settingsPath` holds. */
  function EarlyFailure(err: Rejection, self: Receiver, deletion: Settled): (a: Attempt)
    ensures a.result == Rejected(err) && a.receiver == self && a.polls == [] && a.waits == 0
    ensures a.calls == [] || a.calls == [Delete(self.settingsPath)]
    ensures |a.calls| == 1 <==> err.IsErrorDerived()
  {
    var h := HandleActivationError(err, self.settingsPath, deletion);
    Attempt(h.result, h.calls, [], 0, self)
  }

  /**
   * `connectToAccessPoint(ssid, passphrase, dns)` as written, on the wireless
   * device `device` chosen by `init`: find the access point, submit the settings,
   * record the new profile's path on the receiver, wait for activation; any
   * failure goes through `handleActivationError` with the receiver's
   * `settingsPath` at that moment.
   */
  function ConnectToAccessPoint(utf8: string -> seq<Byte>, ssid: string, passphrase: Option<string>, dns: Option<seq<string>>,
                                device: Path, env: Environment, self: Receiver): (a: Attempt)
    ensures a.result.Fulfilled? ==> a.result.message == ActivatedMessage
    ensures a.calls == [] || a.calls[0].AddAndActivate? || a.calls == [Delete(self.settingsPath)]
    ensures forall c | c in a.calls && c.Delete? :: c.target == a.receiver.settingsPath
    ensures |a.calls| <= 2
  {
    match env.accessPoints
    case Refused(e) => EarlyFailure(e, self, env.deletion)
    case Got(aps) =>
      match FindAccessPointPathBySsid(aps, ssid)
      case Err(e) => EarlyFailure(e, self, env.deletion)
      case Ok(apPath) =>
        var found := self.(apPath := Some(apPath));
        var submit := AddAndActivate(BuildConnectionSettings(utf8, ssid, passphrase, dns), device, apPath);
        match env.submission
        case Refused(e) =>
          var h := HandleActivationError(e, found.settingsPath, env.deletion);
          Attempt(h.result, [submit] + h.calls, [], 0, found)
        case Got(settingsPath) =>
          var submitted := found.(settingsPath := Some(settingsPath));
          var t := WaitActivateConnection(Polls(env.polls, settingsPath), None, 0);
          if t.result.Fulfilled? then
            Attempt(t.result, [submit], t.polls, t.waits, submitted)
          else
            var h := HandleActivationError(t.result.reason, submitted.settingsPath, env.deletion);
            Attempt(h.result, [submit] + h.calls, t.polls, t.waits, submitted)
  }

  /**
   * `connectToAccessPoint` as evidently intended: a failure deletes a profile only
   * when this call created one, and then that profile. Everything else is as written.
   */
  function ConnectToAccessPointIntended(utf8: string -> seq<Byte>, ssid: string, passphrase: Option<string>, dns: Option<seq<string>>,
                                        device: Path, env: Environment, self: Receiver): (a: Attempt)
    ensures a.calls == [] || a.calls[0].AddAndActivate?
    ensures forall c | c in a.calls && c.Delete? :: env.submission.Got? && c.target == Some(env.submission.value)
  {
    match env.accessPoints
    case Refused(e) => Attempt(Rejected(e), [], [], 0, self)
    case Got(aps) =>
      match FindAccessPointPathBySsid(aps, ssid)
      case Err(e) => Attempt(Rejected(e), [], [], 0, self)
      case Ok(apPath) =>
        var found := self.(apPath := Some(apPath));
        var submit := AddAndActivate(BuildConnectionSettings(utf8, ssid, passphrase, dns), device, apPath);
        match env.submission
        case Refused(e) => Attempt(Rejected(e), [submit], [], 0, found)
        case Got(settingsPath) =>
          var submitted := found.(settingsPath := Some(settingsPath));
          var t := WaitActivateConnection(Polls(env.polls, settingsPath), None, 0);
          if t.result.Fulfilled? then
            Attempt(t.result, [submit], t.polls, t.waits, submitted)
          else
            var h := HandleActivationError(t.result.reason, Some(settingsPath), env.deletion);
            Attempt(h.result, [submit] + h.calls, t.polls, t.waits, submitted)
  }

  /** Submitted and accepted: the access point was found and `AddAndActivateConnection` returned a profile. */
  predicate Submitted(ssid: string, env: Environment) {
    env.accessPoints.Got? && ssid in ListAccessPoints(env.accessPoints.value) && env.submission.Got?
  }

  /**
   * The profile is submitted for the first visible access point with the name,
   * with the settings `buildConnectionSettings` makes, on the device `init` chose.
   */
  lemma SubmitsToFirstMatch(utf8: string -> seq<Byte>, ssid: string, passphrase: Option<string>, dns: Option<seq<string>>,
                            device: Path, env: Environment, self: Receiver)
    ensures var a := ConnectToAccessPoint(utf8, ssid, passphrase, dns, device, env, self);
      forall c | c in a.calls && c.AddAndActivate? ::
        && env.accessPoints.Got?
        && c.settings == BuildConnectionSettings(utf8, ssid, passphrase, dns)
        && c.device == device
        && exists k :: FirstWithSsid(env.accessPoints.value, ssid, k) && c.accessPoint == env.accessPoints.value[k].path
  {
  }

  /**
   * The call succeeds exactly when the profile was submitted and, among the first
   * ten polls, one reads ACTIVATED with every earlier one inconclusive; it then
   * made the submission and nothing else, and the receiver holds the new profile.
   */
  lemma ConnectedIff(utf8: string -> seq<Byte>, ssid: string, passphrase: Option<string>, dns: Option<seq<string>>,
                     device: Path, env: Environment, self: Receiver)
    ensures var a := ConnectToAccessPoint(utf8, ssid, passphrase, dns, device, env, self);
      && (a.result.Fulfilled? <==> Submitted(ssid, env) && ActivatedWithinBound(Polls(env.polls, env.submission.value), 0))
      && (a.result.Fulfilled? ==>
            && |a.calls| == 1 && a.calls[0].AddAndActivate?
            && a.receiver.settingsPath == Some(env.submission.value))
  {
    if Submitted(ssid, env) {
      ActivationFulfilledIff(Polls(env.polls, env.submission.value));
    }
  }

  /**
   * When no poll within the bound reads ACTIVATED, the activation of a submitted
   * profile fails: the call rejects with the activation's error and deletes that
   * profile, once.
   */
  lemma ActivationFailureDeletesOwnProfile(utf8: string -> seq<Byte>, ssid: string, passphrase: Option<string>, dns: Option<seq<string>>,
                                           device: Path, env: Environment, self: Receiver)
    requires Submitted(ssid, env)
    requires !ActivatedWithinBound(Polls(env.polls, env.submission.value), 0)
    ensures var a := ConnectToAccessPoint(utf8, ssid, passphrase, dns, device, env, self);
      && a.result == WaitActivateConnection(Polls(env.polls, env.submission.value), None, 0).result
      && |a.calls| == 2 && a.calls[0].AddAndActivate? && a.calls[1] == Delete(Some(env.submission.value))
  {
    ActivationFulfilledIff(Polls(env.polls, env.submission.value));
  }

  /** Whatever the deletion does, the call settles the same way: a failed delete does not mask the original error. */
  lemma DeletionDoesNotMask(utf8: string -> seq<Byte>, ssid: string, passphrase: Option<string>, dns: Option<seq<string>>,
                            device: Path, env: Environment, self: Receiver, deletion: Settled)
    ensures ConnectToAccessPoint(utf8, ssid, passphrase, dns, device, env, self).result
         == ConnectToAccessPoint(utf8, ssid, passphrase, dns, device, env.(deletion := deletion), self).result
  {
  }

  /**
   * As written, a name that matches no visible access point still runs the
   * compensation: it deletes whatever profile `this.settingsPath` holds from an
   * earlier call (or calls `Delete` on `undefined`), though nothing was submitted.
   */
  lemma NoAccessPointDeletesReceiverProfile(utf8: string -> seq<Byte>, ssid: string, passphrase: Option<string>, dns: Option<seq<string>>,
                                            device: Path, env: Environment, self: Receiver)
    requires env.accessPoints.Got? && ssid !in ListAccessPoints(env.accessPoints.value)
    ensures var a := ConnectToAccessPoint(utf8, ssid, passphrase, dns, device, env, self);
      a.result == Rejected(NoAccessPoint) && a.calls == [Delete(self.settingsPath)] && a.receiver == self
  {
  }

  /**
   * The discrepancy on a concrete input: an earlier call left the profile
   * `/org/freedesktop/NetworkManager/Settings/7` on the receiver; a call for a name
   * no access point carries deletes it, where the intended behaviour deletes nothing.
   */
  lemma StaleProfileDeleted()
    ensures var self := Receiver(Some("/ap/1"), Some("/org/freedesktop/NetworkManager/Settings/7"));
      var env := Environment(Got([]), Got("/org/freedesktop/NetworkManager/Settings/8"),
                             (k: nat) => PollObservation(Got([]), Got(0)), Fulfilled(""));
      var utf8 := (s: string) => [];
      && ConnectToAccessPoint(utf8, "home", None, None, "/dev/wlan0", env, self).calls
           == [Delete(Some("/org/freedesktop/NetworkManager/Settings/7"))]
      && ConnectToAccessPointIntended(utf8, "home", None, None, "/dev/wlan0", env, self).calls == []
  {
  }

  /**
   * As written, a refused `AddAndActivateConnection` also runs the compensation
   * with the receiver's earlier `settingsPath`: after the submission, an
   * Error-derived refusal deletes whatever profile an earlier call left there.
   */
  lemma RefusedSubmissionDeletesReceiverProfile(utf8: string -> seq<Byte>, ssid: string, passphrase: Option<string>, dns: Option<seq<string>>,
                                                device: Path, env: Environment, self: Receiver, e: Rejection)
    requires env.accessPoints.Got? && ssid in ListAccessPoints(env.accessPoints.value) && env.submission == Refused(e)
    ensures var a := ConnectToAccessPoint(utf8, ssid, passphrase, dns, device, env, self);
      && a.result == Rejected(e)
      && |a.calls| >= 1 && a.calls[0].AddAndActivate?
      && a.calls[1..] == (if e.IsErrorDerived() then [Delete(self.settingsPath)] else [])
      && a.receiver.settingsPath == self.settingsPath
  {
  }

  /** Intended: a name that matches no visible access point rejects with `NoAccessPoint` and calls nothing. */
  lemma IntendedNoAccessPoint(utf8: string -> seq<Byte>, ssid: string, passphrase: Option<string>, dns: Option<seq<string>>,
                              device: Path, env: Environment, self: Receiver)
    requires env.accessPoints.Got? && ssid !in ListAccessPoints(env.accessPoints.value)
    ensures var b := ConnectToAccessPointIntended(utf8, ssid, passphrase, dns, device, env, self);
      b.result == Rejected(NoAccessPoint) && b.calls == [] && b.receiver == self
  {
  }

  /** Intended: a refused submission rejects with its error and deletes nothing, as no profile was created. */
  lemma IntendedRefusedSubmission(utf8: string -> seq<Byte>, ssid: string, passphrase: Option<string>, dns: Option<seq<string>>,
                                  device: Path, env: Environment, self: Receiver, e: Rejection)
    requires env.accessPoints.Got? && ssid in ListAccessPoints(env.accessPoints.value) && env.submission == Refused(e)
    ensures var b := ConnectToAccessPointIntended(utf8, ssid, passphrase, dns, device, env, self);
      b.result == Rejected(e) && |b.calls| == 1 && b.calls[0].AddAndActivate? && b.receiver.settingsPath == self.settingsPath
  {
  }

  /**
   * The correction changes nothing but the compensation before submission: the
   * outcome, the polling and the receiver are those of the code as written, and
   * once a profile was submitted the calls are too.
   */
  lemma IntendedAgreesWithWritten(utf8: string -> seq<Byte>, ssid: string, passphrase: Option<string>, dns: Option<seq<string>>,
                                  device: Path, env: Environment, self: Receiver)
    ensures var a := ConnectToAccessPoint(utf8, ssid, passphrase, dns, device, env, self);
      var b := ConnectToAccessPointIntended(utf8, ssid, passphrase, dns, device, env, self);
      && a.result == b.result && a.polls == b.polls && a.waits == b.waits && a.receiver == b.receiver
      && (Submitted(ssid, env) ==> a.calls == b.calls)
  {
  }
}

=== FILE: errors.dfy ===
/** What promises in the module settle with. */
module Errors {

  /**
   * A value a promise can be rejected with. The first three are the module's own
   * error constructors; `BusFailure` is whatever the D-Bus binding rejects with,
   * which may or may not be an `Error` object, so it carries that fact as a flag.
   */
  datatype Rejection =
    | NotActivated
    | NoWiFiDevice
    | NoAccessPoint
    | BusFailure(reason: string, isError: bool)
  {
    /**
     * Whether `Error.prototype` is on the value's prototype chain. `NotActivated`,
     * `NoWiFiDevice` and `NoAccessPoint` all take `Error.prototype` itself as their
     * prototype, so the test `err instanceof NotActivated` holds of these values and
     * of any other `Error`, which is what the `isError` flag of `BusFailure` records.
     */
    predicate IsErrorDerived() {
      !BusFailure? || isError
    }
  }

  /** The answer to one remote call or property read. */
  datatype Reply<+T> = Got(value: T) | Refused(reason: Rejection)

  /** How a promise settles. */
  datatype Settled = Fulfilled(message: string) | Rejected(reason: Rejection)

  /**
   * Bluebird's `.finally`: the original outcome passes through unless the handler's
   * own promise rejects, in which case that rejection replaces it.
   */
  function Finally(original: Settled, handler: Settled): Settled {
    if handler.Rejected? then handler else original
  }
}

=== FILE: ethernet.dfy ===
/**
 * `listEthernetConnections`: the stored profiles of type `802-3-ethernet`, in the
 * order `ListConnections` returns them, each marked with whether some active
 * connection refers back to it.
 */
module Ethernet {
  import opened Basics
  import opened Seqs
  import opened Errors
  import opened NetworkManager

  /** The `connection.type` of a wired profile. */
  const EthernetType := "802-3-ethernet"

  /** A profile as `addConnectionsState` leaves it: `active` is added to its path and settings. */
  datatype ListedConnection = ListedConnection(settingsPath: Path, settings: StoredSettings, active: bool)

  /** `isEthernetConnection`. */
  predicate IsEthernetConnection(p: Profile) {
    p.settings.connectionType == EthernetType
  }

  /** A listed connection without the `active` flag. */
  function Unannotated(c: ListedConnection): Profile {
    Profile(c.settingsPath, c.settings)
  }

  /** `getActiveConnectionPath` on each active connection: its `Connection` back-reference. */
  function BackReference(a: ActiveConnection): Path {
    a.connection
  }

  /** Some active connection refers back to the profile at `settingsPath`. */
  ghost predicate IsActive(actives: seq<ActiveConnection>, settingsPath: Path) {
    exists j :: 0 <= j < |actives| && actives[j].connection == settingsPath
  }

  /**
   * `addConnectionsState`: collect the back-references of the active connections,
   * then mark each profile active exactly when its settings path is among them.
   * Profiles, their order and their settings are untouched.
   */
  method AddConnectionsState(connections: seq<Profile>, actives: seq<ActiveConnection>) returns (r: seq<ListedConnection>)
    ensures |r| == |connections|
    ensures forall i :: 0 <= i < |r| ==> Unannotated(r[i]) == connections[i]
    ensures forall i :: 0 <= i < |r| ==> (r[i].active <==> IsActive(actives, connections[i].settingsPath))
  {
    var paths := Map(BackReference, actives);
    r := [];
    for i := 0 to |connections|
      invariant |r| == i
      invariant forall k :: 0 <= k < i ==> Unannotated(r[k]) == connections[k]
      invariant forall k :: 0 <= k < i ==> (r[k].active <==> IsActive(actives, connections[k].settingsPath))
    {
      var active := connections[i].settingsPath in paths;
      assert active ==> IsActive(actives, connections[i].settingsPath);
      assert IsActive(actives, connections[i].settingsPath) ==> active by {
        if IsActive(actives, connections[i].settingsPath) {
          var j :| 0 <= j < |actives| && actives[j].connection == connections[i].settingsPath;
          assert paths[j] == connections[i].settingsPath;
        }
      }
      r := r + [ListedConnection(connections[i].settingsPath, connections[i].settings, active)];
    }
  }

  /**
   * `listEthernetConnections`: the profiles (with their settings) from
   * `ListConnections`, then the active connections; a failure of either read
   * rejects the whole listing with that failure, the profiles' read first.
   */
  method ListEthernetConnections(profiles: Reply<seq<Profile>>, actives: Reply<seq<ActiveConnection>>)
    returns (r: Result<seq<ListedConnection>, Rejection>)
    ensures profiles.Refused? ==> r == Err(profiles.reason)
    ensures profiles.Got? && actives.Refused? ==> r == Err(actives.reason)
    ensures r.Ok? <==> profiles.Got? && actives.Got?
    ensures r.Ok? ==> Map(Unannotated, r.value) == Filter(IsEthernetConnection, profiles.value)
    ensures r.Ok? ==> forall i :: 0 <= i < |r.value| ==>
      (r.value[i].active <==> IsActive(actives.value, r.value[i].settingsPath))
  {
    match profiles
    case Refused(e) => r := Err(e);
    case Got(all) =>
      var wired := Filter(IsEthernetConnection, all);
      match actives
      case Refused(e) => r := Err(e);
      case Got(current) =>
        var listed := AddConnectionsState(wired, current);
        assert Map(Unannotated, listed) == wired;
        r := Ok(listed);
  }

  /**
   * The listing is exactly the wired profiles: every listed connection is an
   * `802-3-ethernet` profile that `ListConnections` returned, and every such
   * profile is listed.
   */
  lemma ListedAreExactlyWired(profiles: seq<Profile>, listed: seq<ListedConnection>)
    requires Map(Unannotated, listed) == Filter(IsEthernetConnection, profiles)
    ensures forall i :: 0 <= i < |listed| ==>
      listed[i].settings.connectionType == EthernetType && Unannotated(listed[i]) in profiles
    ensures forall k :: 0 <= k < |profiles| && profiles[k].settings.connectionType == EthernetType ==>
      exists i :: 0 <= i < |listed| && Unannotated(listed[i]) == profiles[k]
  {
    var wired := Filter(IsEthernetConnection, profiles);
    forall i | 0 <= i < |listed|
      ensures listed[i].settings.connectionType == EthernetType && Unannotated(listed[i]) in profiles
    {
      assert Unannotated(listed[i]) == wired[i];
    }
    forall k | 0 <= k < |profiles| && profiles[k].settings.connectionType == EthernetType
      ensures exists i :: 0 <= i < |listed| && Unannotated(listed[i]) == profiles[k]
    {
      assert IsEthernetConnection(profiles[k]);
      var i :| 0 <= i < |wired| && wired[i] == profiles[k];
      assert Unannotated(listed[i]) == wired[i];
    }
  }
}

=== FILE: network_manager.dfy ===
/** The NetworkManager objects the module reads, as plain values. */
module NetworkManager {
  import opened Basics

  /** `NM_DEVICE_TYPE_WIFI`. */
  const DeviceTypeWifi: int := 2

  /** `NM_ACTIVE_CONNECTION_STATE_ACTIVATED`. */
  const ActiveStateActivated: int := 2

  /** `NM_ACTIVE_CONNECTION_STATE_DEACTIVATED`. */
  const ActiveStateDeactivated: int := 4

  /** A network device and the value of its `DeviceType` property. */
  datatype Device = Device(path: Path, deviceType: int)

  /** A visible access point and its `Ssid` property, already decoded to text. */
  datatype AccessPoint = AccessPoint(path: Path, ssid: string)

  /** An active connection and its `Connection` property: the settings path of the profile it activates. */
  datatype ActiveConnection = ActiveConnection(path: Path, connection: Path)

  /**
   * The part of a stored profile's settings (`GetSettings`) the module examines:
   * the `connection` section's id, uuid and type.
   */
  datatype StoredSettings = StoredSettings(id: string, uuid: string, connectionType: string)

  /** A stored connection profile: its settings path and its settings. */
  datatype Profile = Profile(settingsPath: Path, settings: StoredSettings)
}

=== FILE: selection.dfy ===
/**
 * Choosing the wireless device (`init`) and resolving a network name to a
 * visible access point (`findAccessPointPathBySsid`). The remote property
 * reads arrive as already-fetched values, in enumeration order.
 */
module Selection {
  import opened Basics
  import opened Seqs
  import opened Errors
  import opened NetworkManager

  /** `isWiFiDevice`: the device's `DeviceType` is `NM_DEVICE_TYPE_WIFI`. */
  predicate IsWiFiDevice(d: Device) {
    d.deviceType == DeviceTypeWifi
  }

  function DevicePath(d: Device): Path {
    d.path
  }

  /** `getFirstWifiDevice`: the first of the filtered paths, or `NoWiFiDevice`. */
  function GetFirstWifiDevice(paths: seq<Path>): Result<Path, Rejection> {
    if |paths| == 0 then Err(NoWiFiDevice) else Ok(paths[0])
  }

  /**
   * `init`: keep the devices that are WiFi devices, in enumeration order, and take
   * the first; the result is the path stored as `DEVICE_PATH`.
   */
  function Init(devices: seq<Device>): (r: Result<Path, Rejection>)
    ensures r.Err? <==> forall i :: 0 <= i < |devices| ==> !IsWiFiDevice(devices[i])
    ensures r.Err? ==> r.error == NoWiFiDevice
    ensures r.Ok? ==> exists i :: FirstWhere(IsWiFiDevice, devices, i) && r.value == devices[i].path
  {
    FilterHead(IsWiFiDevice, devices);
    GetFirstWifiDevice(Map(DevicePath, Filter(IsWiFiDevice, devices)))
  }

  /** `listAccessPoints`: the decoded names of the visible access points, in enumeration order. */
  function ListAccessPoints(aps: seq<AccessPoint>): (names: seq<string>)
    ensures |names| == |aps|
    ensures forall i :: 0 <= i < |aps| ==> names[i] == aps[i].ssid
  {
    seq(|aps|, i requires 0 <= i < |aps| => aps[i].ssid)
  }

  /** `i` is the least index whose access point carries the name `ssid`. */
  ghost predicate FirstWithSsid(aps: seq<AccessPoint>, ssid: string, i: int) {
    0 <= i < |aps| && aps[i].ssid == ssid && forall j :: 0 <= j < i ==> aps[j].ssid != ssid
  }

  /** The search loop of `findAccessPointPathBySsid`, from index `i` on. */
  function ScanFrom(aps: seq<AccessPoint>, ssid: string, i: nat): (r: Result<Path, Rejection>)
    requires i <= |aps|
    requires forall j :: 0 <= j < i ==> aps[j].ssid != ssid
    ensures r.Err? <==> forall j :: 0 <= j < |aps| ==> aps[j].ssid != ssid
    ensures r.Err? ==> r.error == NoAccessPoint
    ensures r.Ok? ==> exists k :: FirstWithSsid(aps, ssid, k) && r.value == aps[k].path
    decreases |aps| - i
  {
    if i == |aps| then Err(NoAccessPoint)
    else if aps[i].ssid == ssid then
      assert FirstWithSsid(aps, ssid, i);
      Ok(aps[i].path)
    else ScanFrom(aps, ssid, i + 1)
  }

  /**
   * `findAccessPointPathBySsid`: the path of the first visible access point named
   * `ssid`, or `NoAccessPoint` exactly when no visible access point has that name.
   */
  function FindAccessPointPathBySsid(aps: seq<AccessPoint>, ssid: string): (r: Result<Path, Rejection>)
    ensures r.Err? <==> ssid !in ListAccessPoints(aps)
    ensures r.Err? ==> r.error == NoAccessPoint
    ensures r.Ok? ==> exists k :: FirstWithSsid(aps, ssid, k) && r.value == aps[k].path
  {
    ScanFrom(aps, ssid, 0)
  }
}

=== FILE: seqs.dfy ===
/** Order-preserving sequence combinators used by the promise fan-outs (`map`, `filter`). */
module Seqs {

  /** The elements of `s` that satisfy `f`, in their original order. */
  function Filter<T>(f: T -> bool, s: seq<T>): (r: seq<T>)
    ensures |r| <= |s|
    ensures forall i :: 0 <= i < |r| ==> f(r[i])
    ensures forall i :: 0 <= i < |r| ==> r[i] in s
    ensures forall i :: 0 <= i < |s| && f(s[i]) ==> s[i] in r
    decreases |s|
  {
    if |s| == 0 then []
    else
      assert s == [s[0]] + s[1..];
      if f(s[0]) then [s[0]] + Filter(f, s[1..]) else Filter(f, s[1..])
  }

  /** `f` applied to every element of `s`, positions preserved. */
  function Map<T, U>(f: T -> U, s: seq<T>): (r: seq<U>)
    ensures |r| == |s|
    ensures forall i :: 0 <= i < |s| ==> r[i] == f(s[i])
  {
    seq(|s|, i requires 0 <= i < |s| => f(s[i]))
  }

  /** `i` is the least position of `s` whose element satisfies `f`. */
  ghost predicate FirstWhere<T>(f: T -> bool, s: seq<T>, i: int) {
    0 <= i < |s| && f(s[i]) && forall j :: 0 <= j < i ==> !f(s[j])
  }

  /** The head of a filtered sequence is the first element that satisfies the filter. */
  lemma {:induction false} FilterHead<T>(f: T -> bool, s: seq<T>)
    ensures |Filter(f, s)| == 0 <==> forall i :: 0 <= i < |s| ==> !f(s[i])
    ensures |Filter(f, s)| > 0 ==> exists i :: FirstWhere(f, s, i) && Filter(f, s)[0] == s[i]
    decreases |s|
  {
    if |s| > 0 {
      if f(s[0]) {
        assert FirstWhere(f, s, 0);
      } else {
        FilterHead(f, s[1..]);
        if |Filter(f, s)| > 0 {
          var i :| FirstWhere(f, s[1..], i) && Filter(f, s[1..])[0] == s[1..][i];
          assert FirstWhere(f, s, i + 1);
        }
      }
    }
  }
}

=== FILE: settings.dfy ===
/** `buildConnectionSettings`: the NetworkManager settings record submitted for a wireless network. */
module Settings {
  import opened Basics
  import opened Seqs
  import opened Address

  const WirelessType := "802-11-wireless"
  const AuthAlgOpen := "open"
  const KeyMgmtWpaPsk := "wpa-psk"
  const Ipv4MethodAuto := "auto"

  /** The `802-11-wireless` section. */
  datatype WirelessSection = WirelessSection(ssid: seq<Byte>)

  /** The `connection` section. */
  datatype ConnectionSection = ConnectionSection(id: string, connectionType: string)

  /** The `802-11-wireless-security` section; `psk` is `None` when no passphrase was passed. */
  datatype SecuritySection = SecuritySection(authAlg: string, keyMgmt: string, psk: Option<string>)

  /** The `ipv4` section; each DNS entry is what `ipToInt` made of one address. */
  datatype Ipv4Section = Ipv4Section(dns: seq<JsNumber>, ignoreAutoDns: bool, ipv4Method: string)

  datatype ConnectionSettings = ConnectionSettings(
    wireless: WirelessSection,
    connection: ConnectionSection,
    security: SecuritySection,
    ipv4: Option<Ipv4Section>)

  /**
   * `buildConnectionSettings(ssid, passphrase, dns)`. `utf8` is the string-to-bytes
   * conversion the source delegates to `Buffer`.
   */
  function BuildConnectionSettings(utf8: string -> seq<Byte>, ssid: string, passphrase: Option<string>, dns: Option<seq<string>>): (s: ConnectionSettings)
    ensures s.wireless.ssid == utf8(ssid)
    ensures s.connection.id == ssid && s.connection.connectionType == WirelessType
    ensures s.security.authAlg == AuthAlgOpen && s.security.keyMgmt == KeyMgmtWpaPsk && s.security.psk == passphrase
    ensures s.ipv4.Some? <==> dns.Some?
    ensures dns.Some? ==>
      && |s.ipv4.value.dns| == |dns.value|
      && (forall i :: 0 <= i < |dns.value| ==> s.ipv4.value.dns[i] == IpToInt(dns.value[i]))
      && s.ipv4.value.ignoreAutoDns
      && s.ipv4.value.ipv4Method == Ipv4MethodAuto
  {
    ConnectionSettings(
      WirelessSection(utf8(ssid)),
      ConnectionSection(ssid, WirelessType),
      SecuritySection(AuthAlgOpen, KeyMgmtWpaPsk, passphrase),
      match dns
      case None => None
      case Some(addresses) => Some(Ipv4Section(Map(IpToInt, addresses), true, Ipv4MethodAuto)))
  }

  /**
   * Round trip through the settings record: DNS servers given as dotted-decimal
   * octets come out as 32-bit numbers, in the same order, that unpack to those octets.
   */
  lemma DnsRoundTrip(utf8: string -> seq<Byte>, ssid: string, passphrase: Option<string>, servers: seq<seq<nat>>)
    requires forall k :: 0 <= k < |servers| ==> |servers[k]| == 4 && IsOctets(servers[k])
    ensures var s := BuildConnectionSettings(utf8, ssid, passphrase, Some(Map(FormatAddress, servers)));
      && s.ipv4.Some?
      && |s.ipv4.value.dns| == |servers|
      && forall k :: 0 <= k < |servers| ==>
           && s.ipv4.value.dns[k].Finite?
           && 0 <= s.ipv4.value.dns[k].value < 0x1_0000_0000
           && Unpack(s.ipv4.value.dns[k].value, 4) == servers[k]
  {
    var s := BuildConnectionSettings(utf8, ssid, passphrase, Some(Map(FormatAddress, servers)));
    forall k | 0 <= k < |servers|
      ensures s.ipv4.value.dns[k] == Finite(Pack(servers[k]))
      ensures 0 <= Pack(servers[k]) < 0x1_0000_0000
      ensures Unpack(Pack(servers[k]), 4) == servers[k]
    {
      IpToIntFourOctets(servers[k]);
    }
  }
}
